=== FILE: README.md ===
# Chemicals REST facade — Dafny model

A model of `index.php`, a small PHP REST endpoint over one relational table,
`chemicals(id PRIMARY KEY, name, risk, precautionary)`. Once the database is
abstracted to a map, the endpoint is a deterministic state machine: a request
(method, path, decoded JSON body) and a table go in, and a response (status,
body kind) and a table come out.

Modules:

- `Optional` (`optional.dfy`): `Option`. `None` is PHP `null` and SQL `NULL`.
- `Gateway` (`gateway.dfy`): the table as `map<string, Row>` keyed by `id`. It
  also holds the five `ChemicalGateway` statements, each as a pure map
  operation: `FindAll`, `Find`, `Insert`, `Update` and `Delete`. `Insert` of a
  key that already exists is the driver exception (`Fatal`).
- `Routing` (`routing.dfy`): `explode('/', …)` as `Split`, proved to be the
  inverse of `Join` (PHP's `implode`). Also the front script's routing:
  segment 3 must be `chemicals`, and segment 4, when present, is the
  identifier.
- `Controller` (`controller.dfy`): `ChemicalController`. It covers body
  validation (`isset` of `id` and `name`), the 404 and 422 responses, the
  get/create/update/delete handlers and `ProcessRequest`. On GET, the identifier
  is tested for PHP truthiness, so `""` and `"0"` list everything. PUT and
  DELETE look those values up as keys.
- `ControllerProperties` (`properties.dfy`): the per-request promises. These
  are: invalid input changes nothing, 404 wins over 422 on PUT, and the PUT key
  is the URL identifier. They also cover the round trips POST→GET, PUT→GET and
  DELETE→GET.
- `Service` (`service.dfy`): the top-level script (`Serve`: route, then
  dispatch) and runs of many requests against one table. It includes frame
  lemmas over whole runs and the formaldehyde example as a two-request run.

Where the code differs from what a REST client would expect, the model follows the code:

- Validation checks presence only (`isset`), not non-emptiness. An empty
  `name` is accepted (`ControllerProperties.EmptyNameAccepted`).
- `GET …/chemicals/0` and `GET …/chemicals/` list every row. They do not look
  up a key, because `"0"` and `""` are falsy in PHP.
- A duplicate-key POST does not produce a distinct error status. Assuming
  PDO raises exceptions (its default from PHP 8), the driver
  exception makes the script `exit` with the driver's text before
  `processRequest` sets a status line. The client therefore gets PHP's
  default status 200 with that text (`Response(OK, DriverMessage)`), and the
  table is unchanged.

## Model

| member | source | states |
|---|---|---|
| Gateway.FindAll | index.php:34-44 | the listing holds exactly the rows of the table, each once: a record is listed iff the table maps its key to its row, and there are as many records as keys |
| Gateway.Find | index.php:46-57 | lookup by key yields at most one record, and yields a record iff the key is given (not NULL) and the table holds that record under it |
| Gateway.Insert | index.php:59-74 | inserting fails with a driver exception iff the key is already present; otherwise one row is affected, the keys grow by exactly the new key, the new record is held and every old row is kept |
| Gateway.Update | index.php:76-91 | the update never fails and keeps the key set; the addressed row, if present, takes the new columns; every other row is unchanged; the affected count is 1 iff the row existed and differed |
| Gateway.Delete | index.php:93-103 | the delete removes exactly the addressed key and leaves every other row as it was; the affected count is 1 iff the key existed |
| Gateway.InsertThenFind | index.php:46-74 | a row inserted under a fresh key is found again by that key, as exactly that record |
| Gateway.DeleteThenFind | index.php:46-103 | after deleting a key, looking it up finds nothing |
| Routing.Split | index.php:237 | exploding the path on `/` yields at least one segment, no segment contains `/`, and joining the segments with `/` gives back the path |
| Routing.SplitJoin | index.php:237 | exploding a `/`-joined sequence of `/`-free segments gives back exactly those segments |
| Routing.Route | index.php:235-252 | a path is routed to the controller iff its exploded segment 3 exists and equals `chemicals`; the identifier is present iff segment 4 exists, and then it is segment 4 |
| Routing.RouteSegments | index.php:241-252 | a request is routed to the controller iff there is a segment 3 and it equals `chemicals`; the identifier is present iff segment 4 exists, and then it is segment 4 |
| Routing.RouteOfJoin | index.php:235-252 | for any path built from `/`-free segments, routing is decided by segment 3 and the identifier is segment 4 when it exists, absent otherwise |
| Routing.RouteExample | index.php:246-252 | `/api/v1/chemicals/50-00-8` routes to the controller with identifier `50-00-8` |
| Routing.CollectionPathExample | index.php:247-252 | `/api/v1/chemicals` routes to the controller with no identifier |
| Routing.TrailingSlashExample | index.php:248-252 | a trailing slash yields the empty identifier rather than none |
| Routing.ShortPathExample | index.php:239-244 | `/chemicals/50-00-8` is not routed, since `chemicals` is not at index 3 |
| Controller.Valid | index.php:176-184 | a body is valid iff `id` and `name` are both present and not null |
| Controller.Truthy | index.php:203 | a truthy identifier is present and non-empty; every identifier of two or more characters is truthy (only `""`, `"0"` and null are falsy) |
| Controller.Field | index.php:67-68 | the `?? null` read yields a value iff the member is set (present and not null), and then it is the member's value |
| Controller.RowOf | index.php:64-69 | the written name is the body's `name`; `risk` and `precautionary` are NULL iff not set in the body, else the body's values |
| Controller.RecordOf | index.php:64-66 | the inserted key is the body's `id` |
| Controller.NotFoundResponse | index.php:194-198 | status 404 with no body |
| Controller.UnprocessableEntityResponse | index.php:186-192 | status 422 with the `Invalid input` error object |
| Controller.GetAllChemicals | index.php:122-127 | 200 with a listing holding exactly the table's rows; the table is unchanged |
| Controller.GetChemical | index.php:129-137 | 200 iff the identifier is a present key, and then the body is exactly that one record; otherwise 404 with no body; the table is unchanged |
| Controller.CreateChemicalFromRequest | index.php:139-148 | invalid body: 422 and no change; valid body with an existing key: driver text and no change; valid body with a fresh key: 201, exactly that key is added with the body's columns, old rows kept |
| Controller.UpdateChemicalFromRequest | index.php:150-163 | unknown identifier: 404 and no change, whatever the body; known identifier with invalid body: 422 and no change; otherwise 200, same keys, the URL row takes the body's columns, other rows unchanged |
| Controller.DeleteChemical | index.php:165-174 | unknown identifier: 404 and no change; otherwise 200, exactly that key is removed, other rows unchanged |
| Controller.ProcessRequest | index.php:200-221 | an error status leaves the table unchanged; GET never changes it; only POST, PUT or DELETE change it; only the row named by the URL identifier can change or vanish; a new key comes only from a POST body's `id` |
| ControllerProperties.InvalidPostRejected | index.php:139-143 | a POST lacking `id` or `name` answers 422 with the error object and leaves the table unchanged |
| ControllerProperties.ValidPostInserts | index.php:59-69 | a valid POST with a fresh key answers 201 with no body, adds exactly one row, which is found under the body's key with the body's columns, and keeps all other rows |
| ControllerProperties.EmptyNameAccepted | index.php:176-184 | validation checks presence only: an empty name is created |
| ControllerProperties.DuplicatePostIsFatal | index.php:59-74 | a valid POST with an existing key yields the driver's text and leaves the table unchanged |
| ControllerProperties.MissingChemicalNotFound | index.php:129-169 | GET with a truthy identifier, PUT or DELETE of a missing chemical answers 404 with no body and changes nothing, for every body |
| ControllerProperties.ValidPutOverwrites | index.php:76-86 | a valid PUT of an existing key answers 200 with no body and replaces its name, risk and precautionary; the key stays the URL identifier whatever the body's `id`; no other row changes |
| ControllerProperties.InvalidPutRejected | index.php:155-158 | a PUT of an existing key with an invalid body answers 422 and changes nothing |
| ControllerProperties.DeleteThenGet | index.php:165-173 | for a key other than `""` and `"0"`, DELETE of an existing key answers 200 and removes exactly that key; a following GET of it answers 404 |
| ControllerProperties.PostThenGet | index.php:129-147 | for a body `id` other than `""` and `"0"`, after a valid POST with a fresh key, a GET of the new key answers 200 with exactly the created record |
| ControllerProperties.PutThenGet | index.php:129-162 | for a key other than `""` and `"0"`, after a valid PUT of an existing key, a GET of the URL identifier answers 200 with the key and the body's columns |
| ControllerProperties.FalsyGetListsAll | index.php:202-207 | GET with an absent, empty or `"0"` identifier answers 200 with every row and changes nothing |
| ControllerProperties.ZeroIdListsAll | index.php:203 | `GET …/chemicals/0` answers 200 with the listing of every row, and changes nothing, even when key `"0"` exists |
| ControllerProperties.UnknownMethodNotFound | index.php:218-220 | any method other than GET, POST, PUT and DELETE answers 404 with no body and changes nothing |
| Service.Serve | index.php:235-259 | a path not routed to `chemicals` answers 404 without touching the table; an error status leaves the table unchanged; only the row the URL names can change or vanish |
| Service.RunKeepsUnnamed | index.php:235-259 | across any sequence of requests, a row whose key no request's URL names comes out unchanged, even when POST bodies repeat its key |
| Service.DuplicatePostRunKeepsStore | index.php:59-74 | any sequence of valid POSTs whose body keys are all already present leaves the table exactly as it was, whatever paths they are sent to |
| Service.RunKeysComeFromPosts | index.php:235-259 | every key present after a sequence of requests was present at the start or was the body `id` of one of its POSTs |
| Service.FormaldehydeExample | index.php:129-148 | POST of formaldehyde to an empty table answers 201 with no body; a following GET by its CAS number answers 200 with the single positional tuple (50-00-8, Formaldehyde, carcinogen, NULL) |

## Left out

- `DatabaseConnector` (index.php:2-22): connection setup and credentials are
  configuration and I/O. A failed connection would exit before any request
  is handled, so it has no counterpart here.
- SQL execution and PDO fetch modes. Each statement is a map operation. The
  associative versus positional row shapes are two body kinds, `Listing` and
  `Tuples`, and their JSON rendering is not modelled.
- Key comparison in SQL is modelled as exact string equality. The database's
  collation rules (case-insensitivity, trailing spaces) are not modelled.
- Driver exceptions other than a duplicate primary key are not modelled,
  because the table's column types and limits are not part of this model.
  Examples are a value too long for its column and a lost connection.
- JSON decoding, reading `php://input`, `json_encode` pretty-printing and the
  `(object)` casts. The body arrives already decoded as a map from member
  names to strings or `null`. A missing or undecodable body is the empty map.
  Non-string JSON scalars are taken as already converted to strings.
- `parse_url(…, PHP_URL_PATH)` (index.php:235): the model takes the path
  component directly.
- CORS and content-type headers, `header()` and the `echo` of the body
  (index.php:222-233): output side effects only.
- Controller.CreateChemicalFromRequest: assumes the driver raises an exception on a failed statement, which is PDO's default from PHP 8 on; the connection never sets `PDO::ATTR_ERRMODE` (index.php:13). Under PHP 7's silent default, a duplicate-key INSERT's `execute()` just returns false, the `catch` never runs, and the request answers 201 Created with the table unchanged. That outcome is not modelled.
- Gateway.FindAll: returns a set, so the storage order of the listing is not
  modelled (the SELECT has no ORDER BY).

=== FILE: controller.dfy ===
/** The chemical controller: dispatch on the HTTP method and the optional
    identifier, presence validation of the request body, and the response
    each handler produces together with the table it leaves behind. */
module Controller {
  import opened Optional
  import opened Gateway

  /** A decoded JSON request body: member name to string value, `None` for
      JSON `null`. A missing or undecodable body is the empty map. */
  type Body = map<string, Option<string>>

  /** PHP's `isset($input[key])`: the member is there and is not `null`. */
  predicate IsSet(body: Body, key: string)
  {
    key in body && body[key].Some?
  }

  /** PHP's `$input[key] ?? null`. */
  function Field(body: Body, key: string): (v: Option<string>)
    ensures v.Some? <==> IsSet(body, key)
    ensures v.Some? ==> body[key] == v
  {
    if key in body then body[key] else None
  }

  /** The body names a chemical: both `id` and `name` are set. */
  predicate Valid(body: Body)
    ensures Valid(body) <==> Field(body, "id").Some? && Field(body, "name").Some?
    ensures Valid(body) ==> "id" in body && "name" in body
  {
    IsSet(body, "id") && IsSet(body, "name")
  }

  /** The columns a valid body writes; absent or null `risk` and
      `precautionary` become SQL `NULL`. */
  function RowOf(body: Body): (row: Row)
    requires Valid(body)
    ensures Some(row.name) == body["name"]
    ensures row.risk.Some? <==> IsSet(body, "risk")
    ensures row.risk.Some? ==> body["risk"] == row.risk
    ensures row.precautionary.Some? <==> IsSet(body, "precautionary")
    ensures row.precautionary.Some? ==> body["precautionary"] == row.precautionary
  {
    Row(body["name"].value, Field(body, "risk"), Field(body, "precautionary"))
  }

  /** The record a valid POST body inserts: the key comes from the body. */
  function RecordOf(body: Body): (rec: Record)
    requires Valid(body)
    ensures Some(rec.id) == body["id"]
    ensures rec.row == RowOf(body)
  {
    Record(body["id"].value, RowOf(body))
  }

  datatype Status = OK | Created | NotFound | UnprocessableEntity {
    /** The numeric HTTP status code. */
    function Code(): (c: int)
      ensures 200 <= c < 500
      ensures c < 300 <==> OK? || Created?
    {
      match this
      case OK => 200
      case Created => 201
      case NotFound => 404
      case UnprocessableEntity => 422
    }
  }

  /** What the response body carries. `Listing` is the list endpoint's rows
      as field maps; `Tuples` is the single lookup's rows as positional
      arrays; `InvalidInput` is `{"error": "Invalid input"}`;
      `DriverMessage` is the raw text of a driver exception. */
  datatype Payload =
    | Empty
    | Listing(all: set<Record>)
    | Tuples(found: seq<Record>)
    | InvalidInput
    | DriverMessage

  datatype Response = Response(status: Status, payload: Payload)

  /** A response together with the table as the request leaves it. */
  datatype Reply = Reply(response: Response, store: Store)

  /** PHP truthiness of the identifier: `null`, `""` and `"0"` are false. */
  predicate Truthy(id: Option<string>)
    ensures Truthy(id) ==> id.Some? && |id.value| >= 1
    ensures id.Some? && |id.value| >= 2 ==> Truthy(id)
  {
    id.Some? && id.value != "" && id.value != "0"
  }

  function NotFoundResponse(): (r: Response)
    ensures r.status.Code() == 404 && r.payload.Empty?
  {
    Response(NotFound, Empty)
  }

  function UnprocessableEntityResponse(): (r: Response)
    ensures r.status.Code() == 422 && r.payload.InvalidInput?
  {
    Response(UnprocessableEntity, InvalidInput)
  }

  /** List every chemical. */
  function GetAllChemicals(store: Store): (r: Reply)
    ensures r.store == store
    ensures r.response.status == OK
    ensures r.response.payload.Listing?
    ensures forall rec :: rec in r.response.payload.all <==> Holds(store, rec)
  {
    Reply(Response(OK, Listing(FindAll(store))), store)
  }

  /** Look one chemical up: 404 when the lookup comes back empty. */
  function GetChemical(id: Option<string>, store: Store): (r: Reply)
    ensures r.store == store
    ensures r.response.status == OK <==> id.Some? && id.value in store
    ensures r.response.status != OK ==> r.response == NotFoundResponse()
    ensures r.response.status == OK ==>
              r.response.payload == Tuples([Record(id.value, store[id.value])])
  {
    var rows := Find(store, id);
    if rows == [] then
      Reply(NotFoundResponse(), store)
    else
      assert rows[0] in rows;
      Reply(Response(OK, Tuples(rows)), store)
  }

  /** Create a chemical from the request body. The URL identifier plays no
      part. A key that already exists makes the driver throw, and the process
      exits with the driver's text before any status line is set, so the
      client sees PHP's default status 200. */
  function CreateChemicalFromRequest(body: Body, store: Store): (r: Reply)
    ensures !Valid(body) ==> r == Reply(UnprocessableEntityResponse(), store)
    ensures Valid(body) && body["id"].value in store ==>
              r == Reply(Response(OK, DriverMessage), store)
    ensures Valid(body) && body["id"].value !in store ==>
              && r.response == Response(Created, Empty)
              && r.store.Keys == store.Keys + {body["id"].value}
              && Holds(r.store, RecordOf(body))
              && forall k :: k in store ==> r.store[k] == store[k]
  {
    if !Valid(body) then
      Reply(UnprocessableEntityResponse(), store)
    else
      match Insert(store, RecordOf(body))
      case Fatal => Reply(Response(OK, DriverMessage), store)
      case Done(s, _) => Reply(Response(Created, Empty), s)
  }

  /** Replace the non-key columns of an existing chemical. Existence is
      checked before the body, so 404 wins over 422. The key stays the URL
      identifier: the body's `id` must be set but is otherwise ignored. */
  function UpdateChemicalFromRequest(id: Option<string>, body: Body, store: Store): (r: Reply)
    ensures !(id.Some? && id.value in store) ==> r == Reply(NotFoundResponse(), store)
    ensures id.Some? && id.value in store && !Valid(body) ==>
              r == Reply(UnprocessableEntityResponse(), store)
    ensures id.Some? && id.value in store && Valid(body) ==>
              && r.response == Response(OK, Empty)
              && r.store.Keys == store.Keys
              && r.store[id.value] == RowOf(body)
              && forall k :: k in store && k != id.value ==> r.store[k] == store[k]
  {
    var rows := Find(store, id);
    if rows == [] then
      Reply(NotFoundResponse(), store)
    else if !Valid(body) then
      Reply(UnprocessableEntityResponse(), store)
    else
      assert rows[0] in rows;
      Reply(Response(OK, Empty), Update(store, id.value, RowOf(body)).store)
  }

  /** Remove an existing chemical; 404 when there is none. */
  function DeleteChemical(id: Option<string>, store: Store): (r: Reply)
    ensures !(id.Some? && id.value in store) ==> r == Reply(NotFoundResponse(), store)
    ensures id.Some? && id.value in store ==>
              && r.response == Response(OK, Empty)
              && r.store.Keys == store.Keys - {id.value}
              && forall k :: k in r.store ==> r.store[k] == store[k]
  {
    var rows := Find(store, id);
    if rows == [] then
      Reply(NotFoundResponse(), store)
    else
      assert rows[0] in rows;
      Reply(Response(OK, Empty), Delete(store, id.value).store)
  }

  /** Dispatch on the request method. A request that fails leaves the table
      as it was; GET never changes it; only the row the URL names can be
      changed or removed, and a new key can only come from a POST body. */
  function ProcessRequest(requestMethod: string, id: Option<string>, body: Body, store: Store): (r: Reply)
    ensures r.response.status.Code() >= 300 ==> r.store == store
    ensures requestMethod == "GET" ==> r.store == store
    ensures r.store != store ==> requestMethod in {"POST", "PUT", "DELETE"}
    ensures forall k :: k in store && id != Some(k) ==> k in r.store && r.store[k] == store[k]
    ensures forall k :: k in r.store && k !in store ==> requestMethod == "POST" && Field(body, "id") == Some(k)
  {
    if requestMethod == "GET" then
      if Truthy(id) then GetChemical(id, store) else GetAllChemicals(store)
    else if requestMethod == "POST" then
      CreateChemicalFromRequest(body, store)
    else if requestMethod == "PUT" then
      UpdateChemicalFromRequest(id, body, store)
    else if requestMethod == "DELETE" then
      DeleteChemical(id, store)
    else
      Reply(NotFoundResponse(), store)
  }
}

=== FILE: gateway.dfy ===
/** The `chemicals` table and the five statements the record gateway issues
    against it, each as a pure operation on a map keyed by the primary key. */
module Gateway {
  import opened Optional

  /** The non-key columns of one row; `None` is SQL `NULL`. */
  datatype Row = Row(name: string, risk: Option<string>, precautionary: Option<string>)

  /** A row together with its primary key, as a SELECT returns it. */
  datatype Record = Record(id: string, row: Row)

  /** The whole table: primary key to the rest of the row. */
  type Store = map<string, Row>

  /** What a statement leaves behind: the new table and the driver's
      affected-row count, or a driver exception (which ends the process). */
  datatype Outcome = Done(store: Store, affected: nat) | Fatal

  /** `store` holds `r` as one of its rows. */
  predicate Holds(store: Store, r: Record)
  {
    r.id in store && store[r.id] == r.row
  }

  /** The records built from the rows whose keys are in `keys`. */
  function RecordsOf(store: Store, keys: set<string>): set<Record>
    requires keys <= store.Keys
  {
    set k | k in keys :: Record(k, store[k])
  }

  /** Distinct keys give distinct records, so nothing collapses. */
  lemma {:induction false} RecordsOfCount(store: Store, keys: set<string>)
    requires keys <= store.Keys
    ensures |RecordsOf(store, keys)| == |keys|
    decreases keys
  {
    if keys != {} {
      var k :| k in keys;
      RecordsOfCount(store, keys - {k});
      assert RecordsOf(store, keys) == RecordsOf(store, keys - {k}) + {Record(k, store[k])};
      assert Record(k, store[k]) !in RecordsOf(store, keys - {k});
    }
  }

  /** SELECT of every row: each row of the table exactly once. The table has
      no ORDER BY, so the rows are modelled as a set. */
  function FindAll(store: Store): (rows: set<Record>)
    ensures forall r :: r in rows <==> Holds(store, r)
    ensures |rows| == |store|
  {
    RecordsOfCount(store, store.Keys);
    RecordsOf(store, store.Keys)
  }

  /** SELECT by primary key. A `None` key is bound as SQL `NULL`, and
      `id = NULL` matches no row. */
  function Find(store: Store, id: Option<string>): (rows: seq<Record>)
    ensures |rows| <= 1
    ensures forall r :: r in rows <==> id == Some(r.id) && Holds(store, r)
  {
    if id.Some? && id.value in store then [Record(id.value, store[id.value])] else []
  }

  /** INSERT of one record. A key that is already present violates the
      primary key and the driver throws. */
  function Insert(store: Store, rec: Record): (o: Outcome)
    ensures o.Fatal? <==> rec.id in store
    ensures o.Done? ==> o.affected == 1
    ensures o.Done? ==> o.store.Keys == store.Keys + {rec.id}
    ensures o.Done? ==> Holds(o.store, rec)
    ensures o.Done? ==> forall r :: Holds(store, r) ==> Holds(o.store, r)
  {
    if rec.id in store then Fatal else Done(store[rec.id := rec.row], 1)
  }

  /** UPDATE ... WHERE id = :id, with the key column set to the same value:
      the non-key columns of the row with key `id` are replaced, if there is
      one. MySQL reports only rows whose values actually changed. */
  function Update(store: Store, id: string, row: Row): (o: Outcome)
    ensures o.Done?
    ensures o.store.Keys == store.Keys
    ensures id in store ==> o.store[id] == row
    ensures forall k :: k in store && k != id ==> o.store[k] == store[k]
    ensures o.affected <= 1
    ensures o.affected == 1 <==> id in store && store[id] != row
  {
    if id in store then Done(store[id := row], if store[id] != row then 1 else 0)
    else Done(store, 0)
  }

  /** DELETE ... WHERE id = :id. */
  function Delete(store: Store, id: string): (o: Outcome)
    ensures o.Done?
    ensures o.store.Keys == store.Keys - {id}
    ensures forall k :: k in o.store ==> o.store[k] == store[k]
    ensures o.affected <= 1
    ensures o.affected == 1 <==> id in store
  {
    Done(store - {id}, if id in store then 1 else 0)
  }

  /** A row that was inserted is found again under its key. */
  lemma InsertThenFind(store: Store, rec: Record)
    requires rec.id !in store
    ensures Insert(store, rec).Done?
    ensures Find(Insert(store, rec).store, Some(rec.id)) == [rec]
  {
    var rows := Find(Insert(store, rec).store, Some(rec.id));
    assert rec in rows;
  }

  /** A key that was deleted is not found any more. */
  lemma DeleteThenFind(store: Store, id: string)
    ensures Find(Delete(store, id).store, Some(id)) == []
  {
  }
}

=== FILE: optional.dfy ===
/** Optional values: `None` stands for PHP `null` and for SQL `NULL`. */
module Optional {

  datatype Option<+T> = None | Some(value: T)
}

=== FILE: properties.dfy ===
/** What one request does to the table and what it answers, case by case. */
module ControllerProperties {
  import opened Optional
  import opened Gateway
  import opened Controller

  /** A POST whose body lacks `id` or `name` answers 422 with the error
      object, whatever the table holds, and changes nothing. */
  lemma InvalidPostRejected(id: Option<string>, body: Body, store: Store)
    requires !IsSet(body, "id") || !IsSet(body, "name")
    ensures ProcessRequest("POST", id, body, store)
            == Reply(Response(UnprocessableEntity, InvalidInput), store)
  {
  }

  /** A valid POST with a fresh key answers 201 with no body and adds exactly
      that one row, `risk` and `precautionary` defaulting to `NULL`. */
  lemma ValidPostInserts(id: Option<string>, body: Body, store: Store)
    requires Valid(body) && body["id"].value !in store
    ensures var r := ProcessRequest("POST", id, body, store);
            && r.response == Response(Created, Empty)
            && r.store.Keys == store.Keys + {body["id"].value}
            && |r.store| == |store| + 1
            && Find(r.store, body["id"]) == [Record(body["id"].value, RowOf(body))]
            && (forall k :: k in store ==> r.store[k] == store[k])
  {
    var r := ProcessRequest("POST", id, body, store);
    var k := body["id"].value;
    assert |r.store.Keys| == |store.Keys| + 1;
    assert Record(k, RowOf(body)) in Find(r.store, body["id"]);
  }

  /** Presence is all that is checked: an empty `name` is accepted. */
  lemma EmptyNameAccepted(cas: string, store: Store)
    requires cas !in store
    ensures ProcessRequest("POST", None, map["id" := Some(cas), "name" := Some("")], store).response
            == Response(Created, Empty)
  {
  }

  /** A valid POST whose key already exists makes the driver throw: the
      client gets the driver's text and the table is unchanged. */
  lemma DuplicatePostIsFatal(id: Option<string>, body: Body, store: Store)
    requires Valid(body) && body["id"].value in store
    ensures ProcessRequest("POST", id, body, store) == Reply(Response(OK, DriverMessage), store)
  {
  }

  /** GET with a truthy identifier, PUT or DELETE of a chemical that does not
      exist answers 404 with no body and changes nothing; for PUT this holds
      even when the body is invalid. */
  lemma MissingChemicalNotFound(requestMethod: string, id: Option<string>, body: Body, store: Store)
    requires requestMethod == "PUT" || requestMethod == "DELETE" || (requestMethod == "GET" && Truthy(id))
    requires id.None? || id.value !in store
    ensures ProcessRequest(requestMethod, id, body, store) == Reply(Response(NotFound, Empty), store)
  {
  }

  /** A valid PUT of an existing chemical answers 200 with no body and
      replaces `name`, `risk` and `precautionary` of the row the URL names;
      the key stays the URL identifier whatever `id` the body carries, and
      no other row changes. */
  lemma ValidPutOverwrites(cas: string, body: Body, store: Store)
    requires cas in store && Valid(body)
    ensures var r := ProcessRequest("PUT", Some(cas), body, store);
            && r.response == Response(OK, Empty)
            && r.store.Keys == store.Keys
            && r.store[cas] == Row(body["name"].value, Field(body, "risk"), Field(body, "precautionary"))
            && (forall k :: k in store && k != cas ==> r.store[k] == store[k])
  {
  }

  /** A PUT whose body is invalid answers 422 once the chemical exists. */
  lemma InvalidPutRejected(cas: string, body: Body, store: Store)
    requires cas in store && !Valid(body)
    ensures ProcessRequest("PUT", Some(cas), body, store)
            == Reply(Response(UnprocessableEntity, InvalidInput), store)
  {
  }

  /** DELETE of an existing chemical answers 200 and removes exactly that
      row; a later GET of it answers 404. */
  lemma DeleteThenGet(cas: string, body: Body, body': Body, store: Store)
    requires cas in store && Truthy(Some(cas))
    ensures var r := ProcessRequest("DELETE", Some(cas), body, store);
            && r.response == Response(OK, Empty)
            && r.store == store - {cas}
            && |r.store| == |store| - 1
            && ProcessRequest("GET", Some(cas), body', r.store) == Reply(Response(NotFound, Empty), r.store)
  {
    var r := ProcessRequest("DELETE", Some(cas), body, store);
    assert r.store == store - {cas};
  }

  /** What a valid POST stored is what a GET of its key answers with. */
  lemma PostThenGet(id: Option<string>, body: Body, body': Body, store: Store)
    requires Valid(body) && body["id"].value !in store && Truthy(body["id"])
    ensures var r := ProcessRequest("POST", id, body, store);
            ProcessRequest("GET", body["id"], body', r.store)
            == Reply(Response(OK, Tuples([Record(body["id"].value, RowOf(body))])), r.store)
  {
    ValidPostInserts(id, body, store);
  }

  /** What a valid PUT stored is what a GET of the URL identifier answers with. */
  lemma PutThenGet(cas: string, body: Body, body': Body, store: Store)
    requires cas in store && Valid(body) && Truthy(Some(cas))
    ensures var r := ProcessRequest("PUT", Some(cas), body, store);
            ProcessRequest("GET", Some(cas), body', r.store)
            == Reply(Response(OK, Tuples([Record(cas, RowOf(body))])), r.store)
  {
  }

  /** GET with an absent or falsy identifier lists every chemical. */
  lemma FalsyGetListsAll(id: Option<string>, body: Body, store: Store)
    requires !Truthy(id)
    ensures var r := ProcessRequest("GET", id, body, store);
            && r == Reply(Response(OK, Listing(FindAll(store))), store)
            && |r.response.payload.all| == |store|
  {
  }

  /** The identifier `"0"` is falsy in PHP, so `GET .../chemicals/0` lists
      everything even when a chemical with key `"0"` exists. */
  lemma ZeroIdListsAll(body: Body, store: Store)
    requires "0" in store
    ensures ProcessRequest("GET", Some("0"), body, store)
            == Reply(Response(OK, Listing(FindAll(store))), store)
  {
  }

  /** Any method other than GET, POST, PUT and DELETE answers 404 and changes nothing. */
  lemma UnknownMethodNotFound(requestMethod: string, id: Option<string>, body: Body, store: Store)
    requires requestMethod !in {"GET", "POST", "PUT", "DELETE"}
    ensures ProcessRequest(requestMethod, id, body, store) == Reply(Response(NotFound, Empty), store)
  {
  }
}

=== FILE: routing.dfy ===
/** Front-controller routing: the request path is split on `/`, segment 3
    must be `chemicals`, and segment 4, when there is one, is the chemical
    identifier (its CAS number). */
module Routing {
  import opened Optional

  /** The segments `explode('/', s)` returns, with `/` itself on none of them. */
  ghost predicate NoSlash(segs: seq<string>)
  {
    forall i :: 0 <= i < |segs| ==> '/' !in segs[i]
  }

  /** Glues segments back together with `/` between consecutive ones
      (PHP's `implode('/', segs)`). */
  function Join(segs: seq<string>): string
    requires |segs| >= 1
  {
    if |segs| == 1 then segs[0] else segs[0] + "/" + Join(segs[1..])
  }

  /** PHP's `explode('/', s)`: the maximal `/`-free pieces of `s`, in order,
      one more than there are `/` characters, empty pieces included. */
  function Split(s: string): (segs: seq<string>)
    ensures |segs| >= 1
    ensures NoSlash(segs)
    ensures Join(segs) == s
    decreases |s|
  {
    if |s| == 0 then [""]
    else
      var rest := Split(s[1..]);
      if s[0] == '/' then
        [""] + rest
      else
        var segs := [[s[0]] + rest[0]] + rest[1..];
        assert segs[1..] == rest[1..];
        assert s == [s[0]] + s[1..];
        segs
  }

  /** A piece without `/` splits into itself. */
  lemma {:induction false} SplitNoSlash(a: string)
    requires '/' !in a
    ensures Split(a) == [a]
    decreases |a|
  {
    if |a| > 0 {
      assert '/' !in a[1..] by {
        forall i | 0 <= i < |a[1..]| ensures a[1..][i] != '/' {
          assert a[1..][i] == a[i + 1];
        }
      }
      SplitNoSlash(a[1..]);
      assert [a[0]] + a[1..] == a;
    }
  }

  /** Splitting `a/b` where `a` holds no `/` yields `a` then the pieces of `b`. */
  lemma {:induction false} SplitCons(a: string, b: string)
    requires '/' !in a
    ensures Split(a + "/" + b) == [a] + Split(b)
    decreases |a|
  {
    var s := a + "/" + b;
    if |a| == 0 {
      assert s[1..] == b;
    } else {
      assert s[1..] == a[1..] + "/" + b;
      assert '/' !in a[1..] by {
        forall i | 0 <= i < |a[1..]| ensures a[1..][i] != '/' {
          assert a[1..][i] == a[i + 1];
        }
      }
      SplitCons(a[1..], b);
      assert [a[0]] + a[1..] == a;
    }
  }

  /** `explode` undoes `implode` on `/`-free segments. */
  lemma {:induction false} SplitJoin(segs: seq<string>)
    requires |segs| >= 1
    requires NoSlash(segs)
    ensures Split(Join(segs)) == segs
    decreases |segs|
  {
    assert '/' !in segs[0];
    if |segs| == 1 {
      SplitNoSlash(segs[0]);
    } else {
      SplitJoin(segs[1..]);
      SplitCons(segs[0], Join(segs[1..]));
      assert segs == [segs[0]] + segs[1..];
    }
  }

  /** Where a request is sent: to the chemicals controller with the optional
      identifier, or nowhere (404 before the database is touched). */
  datatype Target = Unrouted | Chemicals(id: Option<string>)

  /** Routing on the segments of a path. A missing segment 3 reads as `null`,
      which is not `chemicals`. */
  function RouteSegments(segs: seq<string>): (r: Target)
    ensures r.Chemicals? <==> |segs| > 3 && segs[3] == "chemicals"
    ensures r.Chemicals? ==> (r.id.Some? <==> |segs| > 4)
    ensures r.Chemicals? && |segs| > 4 ==> r.id == Some(segs[4])
  {
    if |segs| <= 3 || segs[3] != "chemicals" then Unrouted
    else if |segs| > 4 then Chemicals(Some(segs[4]))
    else Chemicals(None)
  }

  /** Routing on the path component of the request URI. */
  function Route(path: string): (r: Target)
    ensures r.Chemicals? <==> |Split(path)| > 3 && Split(path)[3] == "chemicals"
    ensures r.Chemicals? ==> (r.id.Some? <==> |Split(path)| > 4)
    ensures r.Chemicals? && |Split(path)| > 4 ==> r.id == Some(Split(path)[4])
  {
    RouteSegments(Split(path))
  }

  /** A path built from `/`-free segments routes by those very segments:
      segment 3 decides whether it is served, segment 4 is the identifier. */
  lemma RouteOfJoin(segs: seq<string>)
    requires |segs| >= 1
    requires NoSlash(segs)
    ensures Route(Join(segs)).Chemicals? <==> |segs| > 3 && segs[3] == "chemicals"
    ensures Route(Join(segs)).Chemicals? ==>
              Route(Join(segs)).id == (if |segs| > 4 then Some(segs[4]) else None)
  {
    SplitJoin(segs);
  }

  /** Joining a few segments, spelled out. */
  lemma JoinThree(a: string, b: string, c: string)
    ensures Join([a, b, c]) == a + "/" + b + "/" + c
  {
    assert [a, b, c][1..] == [b, c];
    assert [b, c][1..] == [c];
    assert Join([b, c]) == b + "/" + c;
    assert a + "/" + (b + "/" + c) == a + "/" + b + "/" + c;
  }

  lemma JoinFour(a: string, b: string, c: string, d: string)
    ensures Join([a, b, c, d]) == a + "/" + b + "/" + c + "/" + d
  {
    assert [a, b, c, d][1..] == [b, c, d];
    JoinThree(b, c, d);
    assert a + "/" + (b + "/" + c + "/" + d) == a + "/" + b + "/" + c + "/" + d;
  }

  lemma JoinFive(a: string, b: string, c: string, d: string, e: string)
    ensures Join([a, b, c, d, e]) == a + "/" + b + "/" + c + "/" + d + "/" + e
  {
    assert [a, b, c, d, e][1..] == [b, c, d, e];
    JoinFour(b, c, d, e);
    assert a + "/" + (b + "/" + c + "/" + d + "/" + e) == a + "/" + b + "/" + c + "/" + d + "/" + e;
  }

  /** Routing a path spelled out from five `/`-free segments. */
  lemma RouteOfFive(a: string, b: string, c: string, d: string, e: string)
    requires '/' !in a && '/' !in b && '/' !in c && '/' !in d && '/' !in e
    ensures Route(a + "/" + b + "/" + c + "/" + d + "/" + e) == RouteSegments([a, b, c, d, e])
  {
    JoinFive(a, b, c, d, e);
    SplitJoin([a, b, c, d, e]);
  }

  /** Routing a path spelled out from four `/`-free segments. */
  lemma RouteOfFour(a: string, b: string, c: string, d: string)
    requires '/' !in a && '/' !in b && '/' !in c && '/' !in d
    ensures Route(a + "/" + b + "/" + c + "/" + d) == RouteSegments([a, b, c, d])
  {
    JoinFour(a, b, c, d);
    SplitJoin([a, b, c, d]);
  }

  /** Routing a path spelled out from three `/`-free segments. */
  lemma RouteOfThree(a: string, b: string, c: string)
    requires '/' !in a && '/' !in b && '/' !in c
    ensures Route(a + "/" + b + "/" + c) == RouteSegments([a, b, c])
  {
    JoinThree(a, b, c);
    SplitJoin([a, b, c]);
  }

  // The examples below take the path as a parameter pinned by `requires`
  // rather than writing `Route("<literal>")` directly: on a literal argument
  // the verifier unfolds `Split` character by character, which costs more
  // than the solver budget allows. For the same reason, each literal is
  // matched to its segments by short concatenation steps.

  /** The sample collection path, spelled out segment by segment. */
  lemma CollectionPathSpelled()
    ensures "/api/v1/chemicals" == "" + "/" + "api" + "/" + "v1" + "/" + "chemicals"
  {
    assert "" + "/" == "/";
    assert "/" + "api" == "/api";
    assert "/api" + "/" == "/api/";
    assert "/api/" + "v1" == "/api/v1";
    assert "/api/v1" + "/" == "/api/v1/";
    assert "/api/v1/" + "chemicals" == "/api/v1/chemicals";
  }

  /** The sample item path, spelled out segment by segment. */
  lemma ItemPathSpelled()
    ensures "/api/v1/chemicals/50-00-8" == "" + "/" + "api" + "/" + "v1" + "/" + "chemicals" + "/" + "50-00-8"
  {
    CollectionPathSpelled();
    assert "/api/v1/chemicals" + "/" == "/api/v1/chemicals/";
    assert "/api/v1/chemicals/" + "50-00-8" == "/api/v1/chemicals/50-00-8";
  }

  /** A typical request path and the identifier it carries. */
  lemma RouteExample(path: string)
    requires path == "/api/v1/chemicals/50-00-8"
    ensures Route(path) == Chemicals(Some("50-00-8"))
  {
    ItemPathSpelled();
    RouteOfFive("", "api", "v1", "chemicals", "50-00-8");
  }

  /** The collection path carries no identifier. */
  lemma CollectionPathExample(path: string)
    requires path == "/api/v1/chemicals"
    ensures Route(path) == Chemicals(None)
  {
    CollectionPathSpelled();
    RouteOfFour("", "api", "v1", "chemicals");
  }

  /** A trailing `/` yields an empty identifier rather than none. */
  lemma TrailingSlashExample(path: string)
    requires path == "/api/v1/chemicals/"
    ensures Route(path) == Chemicals(Some(""))
  {
    CollectionPathSpelled();
    assert "/api/v1/chemicals" + "/" == "/api/v1/chemicals/";
    assert "/api/v1/chemicals/" + "" == "/api/v1/chemicals/";
    RouteOfFive("", "api", "v1", "chemicals", "");
  }

  /** With too few leading segments, `chemicals` is not at index 3. */
  lemma ShortPathExample(path: string)
    requires path == "/chemicals/50-00-8"
    ensures Route(path) == Unrouted
  {
    assert "" + "/" == "/";
    assert "/" + "chemicals" == "/chemicals";
    assert "/chemicals" + "/" == "/chemicals/";
    assert "/chemicals/" + "50-00-8" == "/chemicals/50-00-8";
    RouteOfThree("", "chemicals", "50-00-8");
  }
}

=== FILE: service.dfy ===
/** The front script: route the request path, then hand the method, the
    identifier and the body to the controller. Also sequences of requests
    against one table. */
module Service {
  import opened Optional
  import opened Gateway
  import opened Controller
  import opened Routing

  /** Serve one request. A path whose segment 3 is not `chemicals` answers
      404 before the database is touched. */
  function Serve(requestMethod: string, path: string, body: Body, store: Store): (r: Reply)
    ensures Route(path).Unrouted? ==> r == Reply(Response(NotFound, Empty), store)
    ensures r.response.status.Code() >= 300 ==> r.store == store
    ensures forall k :: k in store && Route(path) != Chemicals(Some(k)) ==>
              k in r.store && r.store[k] == store[k]
  {
    match Route(path)
    case Unrouted => Reply(NotFoundResponse(), store)
    case Chemicals(id) => ProcessRequest(requestMethod, id, body, store)
  }

  datatype Request = Request(requestMethod: string, path: string, body: Body)

  /** A request names key `k` in its URL: its identifier segment is `k`. */
  predicate Names(req: Request, k: string)
  {
    Route(req.path) == Chemicals(Some(k))
  }

  datatype Trace = Trace(responses: seq<Response>, store: Store)

  /** Serve `reqs` one after another, each against the table the previous one left. */
  function Run(reqs: seq<Request>, store: Store): (t: Trace)
    ensures |t.responses| == |reqs|
    decreases |reqs|
  {
    if reqs == [] then Trace([], store)
    else
      var r := Serve(reqs[0].requestMethod, reqs[0].path, reqs[0].body, store);
      var rest := Run(reqs[1..], r.store);
      Trace([r.response] + rest.responses, rest.store)
  }

  /** A row whose key no request of the sequence names in its URL comes out
      of it untouched; a POST whose body repeats the key cannot change it. */
  lemma {:induction false} RunKeepsUnnamed(reqs: seq<Request>, store: Store, k: string)
    requires k in store
    requires forall i :: 0 <= i < |reqs| ==> !Names(reqs[i], k)
    ensures k in Run(reqs, store).store && Run(reqs, store).store[k] == store[k]
    decreases |reqs|
  {
    if reqs != [] {
      var r := Serve(reqs[0].requestMethod, reqs[0].path, reqs[0].body, store);
      assert !Names(reqs[0], k);
      assert k in r.store && r.store[k] == store[k];
      forall i | 0 <= i < |reqs[1..]| ensures !Names(reqs[1..][i], k) {
        assert reqs[1..][i] == reqs[i + 1];
      }
      RunKeepsUnnamed(reqs[1..], r.store, k);
    }
  }

  /** Every key of the final table was there at the start or was the body
      `id` of some POST of the sequence. */
  lemma {:induction false} RunKeysComeFromPosts(reqs: seq<Request>, store: Store, k: string)
    requires k in Run(reqs, store).store
    ensures k in store || exists i :: 0 <= i < |reqs| && reqs[i].requestMethod == "POST"
                                     && Field(reqs[i].body, "id") == Some(k)
    decreases |reqs|
  {
    if reqs != [] && k !in store {
      var r := Serve(reqs[0].requestMethod, reqs[0].path, reqs[0].body, store);
      if k in r.store {
        assert Route(reqs[0].path).Chemicals?;
        assert reqs[0].requestMethod == "POST" && Field(reqs[0].body, "id") == Some(k);
      } else {
        RunKeysComeFromPosts(reqs[1..], r.store, k);
        var i :| 0 <= i < |reqs[1..]| && reqs[1..][i].requestMethod == "POST"
                 && Field(reqs[1..][i].body, "id") == Some(k);
        assert reqs[i + 1] == reqs[1..][i];
      }
    }
  }

  /** The example body: formaldehyde with a risk phrase and no precautionary one. */
  function FormaldehydeBody(): Body
  {
    map["id" := Some("50-00-8"), "name" := Some("Formaldehyde"), "risk" := Some("carcinogen")]
  }

  lemma FormaldehydeCreate()
    ensures ProcessRequest("POST", None, FormaldehydeBody(), map[])
            == Reply(Response(Created, Empty), map["50-00-8" := Row("Formaldehyde", Some("carcinogen"), None)])
  {
  }

  lemma FormaldehydePost(path: string)
    requires path == "/api/v1/chemicals"
    ensures Serve("POST", path, FormaldehydeBody(), map[])
            == Reply(Response(Created, Empty), map["50-00-8" := Row("Formaldehyde", Some("carcinogen"), None)])
  {
    CollectionPathExample(path);
    assert Serve("POST", path, FormaldehydeBody(), map[]) == ProcessRequest("POST", None, FormaldehydeBody(), map[]);
    FormaldehydeCreate();
  }

  lemma FormaldehydeGet(path: string)
    requires path == "/api/v1/chemicals/50-00-8"
    ensures var row := Row("Formaldehyde", Some("carcinogen"), None);
            Serve("GET", path, map[], map["50-00-8" := row]).response
            == Response(OK, Tuples([Record("50-00-8", row)]))
  {
    RouteExample(path);
  }

  /** Create formaldehyde, then look it up by its CAS number: 201 with no
      body, then 200 with the stored record. */
  lemma FormaldehydeExample(collection: string, item: string)
    requires collection == "/api/v1/chemicals"
    requires item == "/api/v1/chemicals/50-00-8"
    ensures Run([Request("POST", collection, FormaldehydeBody()),
                 Request("GET", item, map[])], map[]).responses
            == [Response(Created, Empty),
                Response(OK, Tuples([Record("50-00-8", Row("Formaldehyde", Some("carcinogen"), None))]))]
  {
    var get := Request("GET", item, map[]);
    var reqs := [Request("POST", collection, FormaldehydeBody()), get];
    var s1 := map["50-00-8" := Row("Formaldehyde", Some("carcinogen"), None)];
    FormaldehydePost(collection);
    FormaldehydeGet(item);
    assert reqs[1..] == [get];
    assert Run([get], s1).responses == [Serve(get.requestMethod, get.path, get.body, s1).response];
  }

  /** A sequence of valid POSTs, each repeating a key already in the table,
      leaves the table exactly as it was, whatever paths they are sent to. */
  lemma {:induction false} DuplicatePostRunKeepsStore(reqs: seq<Request>, store: Store)
    requires forall i :: 0 <= i < |reqs| ==>
               reqs[i].requestMethod == "POST" && Valid(reqs[i].body) && reqs[i].body["id"].value in store
    ensures Run(reqs, store).store == store
    decreases |reqs|
  {
    if reqs != [] {
      var r := Serve(reqs[0].requestMethod, reqs[0].path, reqs[0].body, store);
      assert r.store == store;
      forall i | 0 <= i < |reqs[1..]|
        ensures reqs[1..][i].requestMethod == "POST" && Valid(reqs[1..][i].body)
                && reqs[1..][i].body["id"].value in store
      {
        assert reqs[1..][i] == reqs[i + 1];
      }
      DuplicatePostRunKeepsStore(reqs[1..], store);
    }
  }
}
